=== FILE: README.md ===
# Picture cleaner: triage state and path rules

`picture_cleaner.py` shows the JPEG pictures of a folder one at a time. For
each one the user chooses:

- keep it: it leaves the queue;
- mark it bad: its sidecar files (the same name with each configured
  extension, by default `JPG` and `ARW`) move into `<folder>/bad`, and it
  leaves the queue;
- remove only its raw file: the same as marking it bad, limited to `ARW`.

The arrow keys move through the queue and wrap around at both ends.

This project models that triage core in Dafny.

- `Paths` (paths.dfy) holds the string rules:
  - posix `splitext`, `basename` and `join`;
  - the case-insensitive `.jpg` filter applied to the folder listing;
  - sidecar candidates: the path without its extension, a dot, and each
    extension;
  - destinations inside the bad folder.
- `Collection` (collection.dfy) holds the list and cursor rules:
  - the wrap repair of `update_image`;
  - `list.pop`, `filter` and `map`;
  - paths paired with their previews.
- `Files` (files.dfy) treats the filesystem as a set of existing paths.
  - `FileSystem` is a class with `Rename` and `Mkdir`.
  - `MoveAll` is the rename loop of "bad". It is proved equal to
    `ApplyRenames`, a pure fold over planned `Move`s.
  - Lemmas about that fold say exactly which paths exist afterwards.
- `Cleaner` (cleaner.dfy) holds the `PictureCleaner` class. Its fields are
  the source object's triage fields, plus a ghost record of every loaded
  (path, preview) pair. Its methods are the callbacks.
  - `Valid()` says three things:
    - the counters match the lists;
    - the cursor is on a picture, or, once every picture has been set
      aside, at 0 or below;
    - the active and set-aside pairs together are exactly the loaded ones.

Previews are an opaque type `Img`, produced by a `decode` function that
`Show` receives as a parameter. The folder listing is also a parameter.

Behaviour that the model makes explicit:

- Hiding the last remaining picture empties the lists, and `update_image`
  then raises `IndexError`. tkinter reports the exception and keeps running,
  so the object lives on with no pictures. Every later modelled callback
  raises `IndexError` again, and "keep" or "bad" change nothing.
- `View` is either `Showing(preview, title)` or `IndexError`. Every callback
  returns what `update_image` displays, or the `IndexError` it raises.
- With the default extensions, "bad" moves the picture file itself only
  when its extension is spelled `.JPG` (`DefaultMovesImageIff`). A picture
  loaded as `a.jpg` stays in the folder on a case-sensitive filesystem. It
  still leaves the queue.

## Model

| member | source | states |
|---|---|---|
| Paths.SplitExt | picture_cleaner.py:118 | The stem and the extension concatenate back to the path. |
| Paths.SplitExtExtension | picture_cleaner.py:27 | A non-empty extension starts with '.' and contains no other '.' and no '/'. |
| Paths.SplitExtNoExtension | picture_cleaner.py:118 | splitext finds no extension exactly when no dot in the basename follows a non-dot character, so leading dots stay in the root (`.bashrc`, and `.jpg`, which is no JPEG). |
| Paths.Basename | picture_cleaner.py:90 | The basename contains no '/'. |
| Paths.BasenameIsLastComponent | picture_cleaner.py:121 | The basename is a suffix of the path, and when it is shorter than the path it is preceded by '/'. |
| Paths.Lower | picture_cleaner.py:27 | Lower-casing keeps the length, leaves no upper-case letter, and changes only upper-case letters, each into its lower-case partner. |
| Paths.IsJpg | picture_cleaner.py:27 | A name passes the load filter exactly when its extension is '.' followed by j/J, p/P, g/G. |
| Paths.Join | picture_cleaner.py:28 | The joined path ends with the name, and starts with the folder unless the name is absolute. |
| Paths.LoadPaths | picture_cleaner.py:26-28 | No more paths are loaded than names were listed. |
| Paths.LoadPathsMembership | picture_cleaner.py:27-28 | A path is loaded exactly when it is the folder joined with a listed name that passes the filter. |
| Paths.LoadPathsEmpty | picture_cleaner.py:30-32 | Nothing is loaded (so `show` returns early) exactly when no listed name passes the filter. |
| Collection.Filter | picture_cleaner.py:27 | An element is kept exactly when it is in the input and the test accepts it. |
| Collection.FilterConcat | picture_cleaner.py:27 | Filtering keeps listing order: filtering a concatenation concatenates the filtered parts. |
| Collection.MapMembership | picture_cleaner.py:28 | A value is in a mapped list exactly when some element maps to it. |
| Paths.Candidates | picture_cleaner.py:118-119 | One candidate per extension. |
| Paths.CandidateSharesStem | picture_cleaner.py:118-119 | For a path that has an extension and a configured extension without '.' or '/', the candidate splits back into the same stem and '.' plus that extension. |
| Paths.ImageAmongCandidates | picture_cleaner.py:118-119 | The picture itself is among its candidates exactly when its own extension (without the dot) is configured. |
| Paths.CandidatesInFolder | picture_cleaner.py:28 | For a picture listed in a folder, every candidate lies directly in that folder. |
| Paths.BadFolder | picture_cleaner.py:49 | The bad folder starts with the picture folder and ends in `bad`. |
| Paths.BasenameOfJoin | picture_cleaner.py:121 | Joining a name without '/' yields a path whose basename is that name. |
| Paths.Destination | picture_cleaner.py:121 | A moved file keeps its basename, and its destination starts with the bad folder. |
| Paths.DestinationInBadFolder | picture_cleaner.py:49 | For a plain folder (non-empty, not ending in '/'), the bad folder is `<folder>/bad`, and every destination lies directly in it. |
| Paths.DestinationsAvoidCandidates | picture_cleaner.py:119-121 | No candidate's destination is itself a candidate, so renames never feed one another. |
| Cleaner.DefaultMovesImageIff | picture_cleaner.py:21 | With the default `JPG`/`ARW` extensions, a picture that passes the filter is among its own candidates exactly when its extension is `.JPG`. |
| Collection.Wrap | picture_cleaner.py:81-85 | A cursor one step past either end is repaired into range. |
| Collection.WrapIsMod | picture_cleaner.py:82-85 | On cursors from -1 to n, the repair is reduction modulo n. |
| Collection.NextWraps | picture_cleaner.py:98-100 | Stepping forward from a valid cursor and repairing gives (i + 1) mod n. |
| Collection.PreviousWraps | picture_cleaner.py:94-96 | Stepping back from a valid cursor and repairing gives (i - 1 + n) mod n. |
| Collection.AdvanceIsModular | picture_cleaner.py:98-100 | k presses of "next" move the cursor to (i + k) mod n, so n presses return it to where it started. |
| Collection.NextPreviousInverse | picture_cleaner.py:94-100 | "previous" undoes "next", and "next" undoes "previous". |
| Collection.RemoveAt | picture_cleaner.py:127-128 | `pop(i)` leaves one entry fewer, shifts the later entries down by one, and removes exactly that entry from the multiset. |
| Collection.HideLandsOnFollower | picture_cleaner.py:126-132 | With at least two entries, after `pop(i)` and the repair the cursor rests on the entry that "next" would have shown. |
| Collection.PopKeepsPairs | picture_cleaner.py:127-128 | Moving the pair at i from the active lists to the end of the set-aside lists keeps the combined multiset of (path, preview) pairs. |
| Files.FileSystem.Rename | picture_cleaner.py:122 | The source no longer exists (unless it is its own destination) and the destination does; nothing else changes. |
| Files.FileSystem.Mkdir | picture_cleaner.py:50-54 | Reports whether the folder was new (an existing one is the swallowed OSError); it exists afterwards either way. |
| Files.RenameIfExists | picture_cleaner.py:120-122 | A missing source changes nothing. An existing source is gone (unless it is its own destination) and the destination exists. The number of paths never grows. |
| Files.ApplyRenames | picture_cleaner.py:119-122 | Renaming never adds to the number of paths, because a rename replaces what was at its destination. |
| Files.ApplyRenamesFrame | picture_cleaner.py:119-122 | A path that no rename names, as source or destination, exists afterwards exactly when it existed before. |
| Files.MoveAll | picture_cleaner.py:119-122 | The rename loop equals renaming each candidate that exists at that moment into the bad folder, in order. |
| Files.ApplyRenamesMembership | picture_cleaner.py:119-122 | When no destination is also a source and no source has two destinations, a path exists afterwards exactly when it existed and is no source, or it is the destination of a source that existed. |
| Files.ApplyRenamesEffect | picture_cleaner.py:120-122 | When no destination is also a source and no source has two destinations, every source is gone, every existing source's destination exists, and every other path is unchanged. |
| Files.MoveCandidatesMembership | picture_cleaner.py:119-122 | Moving candidates whose destinations avoid them leaves existing exactly the non-candidates that existed, plus the destinations of the candidates that existed. |
| Files.MarkBadMovesSidecars | picture_cleaner.py:115-122 | For a picture listed in a plain folder, "bad" moves exactly its existing sidecars into `<folder>/bad` and changes no other path. |
| Cleaner.PictureCleaner.constructor | picture_cleaner.py:13-19 | A fresh cleaner has no pictures and nothing set aside. |
| Cleaner.PictureCleaner.Show | picture_cleaner.py:21-60 | It records the folder and extensions. With no JPEG it returns early, changing nothing else. Otherwise: the filtered paths in listing order, one preview per path, cursor 0 showing the first picture, empty set-aside lists, and the bad folder created. |
| Cleaner.PictureCleaner.ShowPaths | picture_cleaner.py:30-60 | The same as Show, stated for the already filtered paths. |
| Cleaner.PictureCleaner.Open | picture_cleaner.py:37-60 | For a non-empty path list: the collection loaded as by LoadCollection, the bad folder recorded and created, and the first picture shown. |
| Cleaner.PictureCleaner.ShowDefault | picture_cleaner.py:175 | `show(folder)` from the entry point: every postcondition of Show, with extensions `JPG` and `ARW`. |
| Cleaner.PictureCleaner.LoadCollection | picture_cleaner.py:37-47 | Cursor 0, count = number of paths, the paths in order, preview k decoded from path k, nothing set aside, and the loaded pairs recorded. |
| Cleaner.PictureCleaner.LoadImages | picture_cleaner.py:64-79 | One preview per path, in path order. |
| Cleaner.PictureCleaner.Current | picture_cleaner.py:87-91 | A picture is shown exactly when one is left. Its preview is paired, among the loaded pairs, with the path under the cursor. The title is a suffix of that path that contains no '/'. |
| Cleaner.PictureCleaner.CurrentTitleIsLastComponent | picture_cleaner.py:90-91 | With Current, the title is the whole last component of the current path: a title shorter than the path is preceded by '/'. |
| Cleaner.PictureCleaner.UpdateImage | picture_cleaner.py:81-91 | The cursor is repaired (-1 to the last, at or past the end to the first), and the picture under it is shown with its basename as the title, or IndexError when none is left. |
| Cleaner.PictureCleaner.PreviousImage | picture_cleaner.py:94-96 | The cursor becomes (i - 1 + n) mod n, the state stays valid, and the new current picture is shown. |
| Cleaner.PictureCleaner.NextImage | picture_cleaner.py:98-100 | The cursor becomes (i + 1) mod n, the state stays valid, and the new current picture is shown. |
| Cleaner.PictureCleaner.HideCurrentImage | picture_cleaner.py:126-132 | The current (path, preview) pair is popped from both lists and appended to both set-aside lists. Both counters follow, and no pair is lost or gained. The cursor then rests on the picture that followed (the first, if it was last). With one picture left the lists empty and IndexError results; with none, IndexError and no change. |
| Cleaner.PictureCleaner.PopCurrent | picture_cleaner.py:127-130 | The pops, the appends and the counter updates of hide, keeping both lists aligned and all loaded pairs accounted for. |
| Cleaner.PictureCleaner.MoveSidecars | picture_cleaner.py:112-122 | The filesystem afterwards is the renames of the current picture's candidates (given extensions, or the configured ones when none are given) into the bad folder, each applied when its source exists. |
| Cleaner.PictureCleaner.MarkCurrentImageBad | picture_cleaner.py:111-124 | With no picture left: IndexError, nothing moved and nothing changed. Otherwise every existing sidecar of the current picture (given extensions, or the configured ones when none are given) is renamed into the bad folder, and then the picture is hidden as by hide. |
| Cleaner.PictureCleaner.RemoveRaw | picture_cleaner.py:108-109 | "bad" with exactly the extension `ARW`. |

## Left out

- The tkinter window, canvas, buttons and key bindings are not modelled (`set_window_settings`, `create_buttons`, `create_img_view`, `mainloop`, and the window that `__init__` creates). The constructor models only the state before `show`: no pictures and nothing set aside. The callbacks are modelled as methods; the `event` argument carries no state.
- Screen geometry (`img_w`, `img_h`, button placement) and all console output are not modelled.
- `preview_current_image` is not modelled. It only starts an external viewer process.
- `get_tk_image` (PIL thumbnailing and JPEG re-encoding) is not modelled. Previews are opaque values produced by a `decode` parameter.
- LoadImages: the thread-pool fan-out is not modelled. A decode failure ends the run, and that is not modelled either, because `decode` is total. An unreadable or undecodable file raises inside the worker, and `executor.map` re-raises it in the `for` header, outside the `try`, so `show` ends with an uncaught exception. Only a failure to build the Tk image reaches `sys.exit(1)`.
- Show: the `os.path.isdir` assertion is not modelled; the path set does not distinguish files from folders. The listing is a parameter in place of `os.listdir`.
- FileSystem.Mkdir and FileSystem.Rename: real `os` semantics are not modelled. In particular, neither operation can fail, there are no permissions, and folder contents are not tracked.
- MarkBadMovesSidecars: the folder is required to be non-empty without a trailing '/'. `os.path.abspath` gives such a folder for every argument except the root `/`.
- MarkBadMovesSidecars: names and extensions are required to contain no '/'.
- IsJpg: lower-casing covers ASCII letters only. Python's full Unicode `str.lower` is not modelled.
- MarkCurrentImageBad: the path set is case-sensitive, so `a.JPG` and `a.jpg` are different paths. On a case-insensitive filesystem, such as the macOS default (the program's `qlmanage` preview targets macOS), `os.path.exists('a.JPG')` holds for a file `a.jpg` and the rename moves it. The model does not capture that behaviour; `DefaultMovesImageIff` describes the case-sensitive one.
- MarkCurrentImageBad: `exts=None` and `exts=[]` are both represented by the empty sequence. Both fall back to the configured extensions, as `if not exts` does.
- `main`'s argument-count check and `os.path.abspath` are not modelled. `ShowDefault` stands for its call `show(folder)`.

=== FILE: cleaner.dfy ===
/** The picture cleaner's triage state: the loaded pictures with their
    previews, a cursor into them, and the pictures already set aside, together
    with the callbacks that move the cursor, set the current picture aside, and
    move its files into the bad folder. */
module Cleaner {
  import opened Paths
  import opened Collection
  import opened Files

  /** What the window shows after a callback: the preview under the cursor
      with its file's basename as the title, or the IndexError raised when no
      picture is left to show. */
  datatype View<Img> = Showing(image: Img, title: Path) | IndexError

  /** The extensions moved by "bad" unless the caller configures others. */
  const DefaultExts: seq<string> := ["JPG", "ARW"]

  /** The extensions moved by "remove raw". */
  const RawExts: seq<string> := ["ARW"]

  /** With the default extensions, "bad" moves the picture file itself exactly
      when its extension is spelled ".JPG": the load filter also accepts
      ".jpg", ".Jpg" and the like, whose file the rename (case-sensitive
      here) leaves in place. */
  lemma DefaultMovesImageIff(p: Path)
    requires IsJpg(p)
    ensures p in Candidates(p, DefaultExts) <==> SplitExt(p).ext == ".JPG"
  {
    ImageAmongCandidates(p, DefaultExts);
    JpgSpellingAmongDefaults(SplitExt(p).ext);
  }

  /** Of the spellings of ".jpg", only ".JPG" names a default extension. */
  lemma JpgSpellingAmongDefaults(e: string)
    requires |e| == 4 && e[0] == '.' && (e[1] == 'j' || e[1] == 'J')
    ensures e[1..] in DefaultExts <==> e == ".JPG"
  {
    assert e == [e[0]] + e[1..];
    assert e[1..][0] == e[1];
  }

  class PictureCleaner<Img> {
    var exts: seq<string>
    var imgFolderPath: Path
    var badImgFolderPath: Path
    var imgIndex: int
    var numImgs: int
    var imgPathList: seq<Path>
    var imgList: seq<Img>
    var numBadImgs: int
    var badImgPathList: seq<Path>
    var badImgList: seq<Img>
    /** Every (path, preview) pair that was loaded. */
    ghost var loaded: seq<(Path, Img)>

    /** The counters match the lists, each path stays paired with its own
        preview, and the active and set-aside pairs together are exactly the
        loaded ones. */
    ghost predicate Consistent()
      reads this`numImgs, this`imgPathList, this`imgList,
            this`numBadImgs, this`badImgPathList, this`badImgList, this`loaded
    {
      numImgs == |imgPathList| == |imgList| &&
      numBadImgs == |badImgPathList| == |badImgList| &&
      multiset(Zip(imgPathList, imgList)) + multiset(Zip(badImgPathList, badImgList)) == multiset(loaded)
    }

    /** Consistent, and the cursor is on a picture; once every picture has
        been set aside the cursor is never positive. */
    ghost predicate Valid()
      reads this
    {
      Consistent() &&
      (numImgs > 0 ==> 0 <= imgIndex < numImgs) &&
      (numImgs == 0 ==> imgIndex <= 0)
    }

    /** What `update_image` displays for the current state: with a picture
        left, the preview paired with the path under the cursor, titled with
        that path's last component; otherwise the IndexError. */
    function Current(): (r: View<Img>)
      reads this
      requires Valid()
      ensures r.Showing? <==> numImgs > 0
      ensures r.Showing? ==> (imgPathList[imgIndex], r.image) in multiset(loaded)
      ensures r.Showing? ==> '/' !in r.title && |r.title| <= |imgPathList[imgIndex]| &&
                             imgPathList[imgIndex][|imgPathList[imgIndex]| - |r.title|..] == r.title
    {
      if numImgs == 0 then IndexError
      else
        var p := imgPathList[imgIndex];
        BasenameIsLastComponent(p);
        assert Zip(imgPathList, imgList)[imgIndex] == (p, imgList[imgIndex]);
        Showing(imgList[imgIndex], Basename(p))
    }

    /** The title is the whole last component of the current path: when it
        is shorter than the path, a separator comes right before it. */
    lemma CurrentTitleIsLastComponent()
      requires Valid() && numImgs > 0
      ensures |Current().title| < |imgPathList[imgIndex]| ==>
                imgPathList[imgIndex][|imgPathList[imgIndex]| - |Current().title| - 1] == '/'
    {
      BasenameIsLastComponent(imgPathList[imgIndex]);
    }

    /** The lists and counters are as they were. */
    twostate predicate Untouched()
      reads this
    {
      imgPathList == old(imgPathList) && imgList == old(imgList) &&
      badImgPathList == old(badImgPathList) && badImgList == old(badImgList) &&
      numImgs == old(numImgs) && numBadImgs == old(numBadImgs) && imgIndex == old(imgIndex)
    }

    /** The picture under the old cursor was popped from both active lists and
        appended to both set-aside lists, the counters followed, and the
        cursor was repaired for the shorter collection; with two or more
        pictures it now rests on the one that followed. */
    twostate predicate PoppedCurrent()
      reads this
    {
      old(numImgs) == |old(imgPathList)| == |old(imgList)| && 0 <= old(imgIndex) < old(numImgs) &&
      imgPathList == RemoveAt(old(imgPathList), old(imgIndex)) &&
      imgList == RemoveAt(old(imgList), old(imgIndex)) &&
      badImgPathList == old(badImgPathList) + [old(imgPathList)[old(imgIndex)]] &&
      badImgList == old(badImgList) + [old(imgList)[old(imgIndex)]] &&
      numImgs == old(numImgs) - 1 && numBadImgs == old(numBadImgs) + 1 &&
      imgIndex == Wrap(old(imgIndex), numImgs) &&
      (old(numImgs) >= 2 ==>
        imgPathList[imgIndex] == old(imgPathList)[Wrap(old(imgIndex) + 1, old(numImgs))] &&
        imgList[imgIndex] == old(imgList)[Wrap(old(imgIndex) + 1, old(numImgs))])
    }

    /** The window before any folder is shown: nothing loaded. */
    constructor ()
      ensures Valid() && numImgs == 0 && numBadImgs == 0 && loaded == []
    {
      exts := [];
      imgFolderPath := [];
      badImgFolderPath := [];
      imgIndex := 0;
      numImgs := 0;
      imgPathList := [];
      imgList := [];
      numBadImgs := 0;
      badImgPathList := [];
      badImgList := [];
      loaded := [];
    }

    /** `show`: keep the JPEGs of the listing, in listing order, and set up
        the triage state for them. */
    method Show(folder: Path, listing: seq<string>, exts: seq<string>, decode: Path -> Img, fs: FileSystem)
      returns (loadedAny: bool)
      modifies this, fs
      ensures this.exts == exts && imgFolderPath == folder
      ensures loadedAny <==> LoadPaths(folder, listing) != []
      ensures !loadedAny ==> (fs.paths == old(fs.paths) && Untouched() && loaded == old(loaded) &&
                              badImgFolderPath == old(badImgFolderPath))
      ensures loadedAny ==> Valid() && Current().Showing?
      ensures loadedAny ==> imgIndex == 0 && imgPathList == LoadPaths(folder, listing)
      ensures loadedAny ==> (|imgList| == |imgPathList| &&
                             forall k :: 0 <= k < |imgList| ==> imgList[k] == decode(imgPathList[k]))
      ensures loadedAny ==> badImgPathList == [] && badImgList == [] && numBadImgs == 0
      ensures loadedAny ==> loaded == Zip(imgPathList, imgList)
      ensures loadedAny ==> badImgFolderPath == BadFolder(folder) && fs.paths == old(fs.paths) + {BadFolder(folder)}
    {
      loadedAny := ShowPaths(folder, LoadPaths(folder, listing), exts, decode, fs);
    }

    /** The rest of `show` once the picture paths are known: with none, only
        the folder and extensions are recorded; otherwise one preview is
        decoded per path, the bad folder is created and the first picture is
        displayed. */
    method ShowPaths(folder: Path, paths: seq<Path>, exts: seq<string>, decode: Path -> Img, fs: FileSystem)
      returns (loadedAny: bool)
      modifies this, fs
      ensures this.exts == exts && imgFolderPath == folder
      ensures loadedAny <==> paths != []
      ensures !loadedAny ==> (fs.paths == old(fs.paths) && Untouched() && loaded == old(loaded) &&
                              badImgFolderPath == old(badImgFolderPath))
      ensures loadedAny ==> Valid() && Current().Showing?
      ensures loadedAny ==> imgIndex == 0 && imgPathList == paths
      ensures loadedAny ==> (|imgList| == |imgPathList| &&
                             forall k :: 0 <= k < |imgList| ==> imgList[k] == decode(imgPathList[k]))
      ensures loadedAny ==> badImgPathList == [] && badImgList == [] && numBadImgs == 0
      ensures loadedAny ==> loaded == Zip(imgPathList, imgList)
      ensures loadedAny ==> badImgFolderPath == BadFolder(folder) && fs.paths == old(fs.paths) + {BadFolder(folder)}
    {
      if |paths| > 0 {
        Open(paths, BadFolder(folder), decode, fs);
      }
      // The two fields the early return also sets; no call above reads them.
      this.exts := exts;
      imgFolderPath := folder;
      loadedAny := |paths| > 0;
    }

    /** The part of `show` after some picture was found: load the collection,
        create the bad folder (an existing one is fine) and display the first
        picture. */
    method Open(paths: seq<Path>, badFolder: Path, decode: Path -> Img, fs: FileSystem)
      requires paths != []
      modifies this`imgIndex, this`numImgs, this`imgPathList, this`imgList, this`loaded,
               this`numBadImgs, this`badImgPathList, this`badImgList, this`badImgFolderPath, fs
      ensures Valid() && Current().Showing?
      ensures imgIndex == 0 && imgPathList == paths
      ensures |imgList| == |paths| && forall k :: 0 <= k < |paths| ==> imgList[k] == decode(paths[k])
      ensures badImgPathList == [] && badImgList == [] && numBadImgs == 0
      ensures loaded == Zip(imgPathList, imgList)
      ensures badImgFolderPath == badFolder && fs.paths == old(fs.paths) + {badFolder}
    {
      LoadCollection(paths, decode);
      badImgFolderPath := badFolder;
      var created := fs.Mkdir(badImgFolderPath);
      var view := UpdateImage();
    }

    /** `show(folder)` as the entry point calls it, with the default
        extensions. */
    method ShowDefault(folder: Path, listing: seq<string>, decode: Path -> Img, fs: FileSystem)
      returns (loadedAny: bool)
      modifies this, fs
      ensures exts == DefaultExts && imgFolderPath == folder
      ensures loadedAny <==> LoadPaths(folder, listing) != []
      ensures !loadedAny ==> (fs.paths == old(fs.paths) && Untouched() && loaded == old(loaded) &&
                              badImgFolderPath == old(badImgFolderPath))
      ensures loadedAny ==> Valid() && Current().Showing?
      ensures loadedAny ==> imgIndex == 0 && imgPathList == LoadPaths(folder, listing)
      ensures loadedAny ==> (|imgList| == |imgPathList| &&
                             forall k :: 0 <= k < |imgList| ==> imgList[k] == decode(imgPathList[k]))
      ensures loadedAny ==> badImgPathList == [] && badImgList == [] && numBadImgs == 0
      ensures loadedAny ==> loaded == Zip(imgPathList, imgList)
      ensures loadedAny ==> badImgFolderPath == BadFolder(folder) && fs.paths == old(fs.paths) + {BadFolder(folder)}
    {
      loadedAny := Show(folder, listing, DefaultExts, decode, fs);
    }

    /** The collection `show` sets up for a non-empty list of paths: the
        cursor on the first picture, one preview per path, nothing set aside. */
    method LoadCollection(paths: seq<Path>, decode: Path -> Img)
      requires paths != []
      modifies this`imgIndex, this`numImgs, this`imgPathList, this`imgList, this`loaded,
               this`numBadImgs, this`badImgPathList, this`badImgList
      ensures Valid() && imgIndex == 0 && numImgs == |paths| > 0
      ensures imgPathList == paths
      ensures |imgList| == |paths| && forall k :: 0 <= k < |paths| ==> imgList[k] == decode(paths[k])
      ensures badImgPathList == [] && badImgList == [] && numBadImgs == 0
      ensures loaded == Zip(imgPathList, imgList)
    {
      imgIndex := 0;
      numImgs := |paths|;
      imgPathList := paths;
      LoadImages(paths, decode);
      loaded := Zip(imgPathList, imgList);
      numBadImgs := 0;
      badImgPathList := [];
      badImgList := [];
    }

    /** `load_images`: decode one preview per path, in order, appending each
        to the preview list. */
    method LoadImages(paths: seq<Path>, decode: Path -> Img)
      modifies this`imgList
      ensures |imgList| == |paths|
      ensures forall k :: 0 <= k < |paths| ==> imgList[k] == decode(paths[k])
    {
      imgList := [];
      var k := 0;
      while k < |paths|
        invariant 0 <= k <= |paths|
        invariant |imgList| == k
        invariant forall j :: 0 <= j < k ==> imgList[j] == decode(paths[j])
      {
        imgList := imgList + [decode(paths[k])];
        k := k + 1;
      }
    }

    /** `update_image`: repair a cursor that stepped just past either end,
        then show the picture under it (IndexError when none is left). */
    method UpdateImage() returns (view: View<Img>)
      requires Consistent()
      requires numImgs > 0 ==> -1 <= imgIndex <= numImgs
      requires numImgs == 0 ==> imgIndex <= 1
      modifies this`imgIndex
      ensures Valid()
      ensures imgIndex == Wrap(old(imgIndex), numImgs)
      ensures view == Current()
    {
      if imgIndex == -1 {
        imgIndex := numImgs - 1;
      } else if imgIndex >= numImgs {
        imgIndex := 0;
      }
      if numImgs == 0 {
        return IndexError;
      }
      view := Showing(imgList[imgIndex], Basename(imgPathList[imgIndex]));
    }

    /** `previous_image`: the cursor moves back one place, wrapping from the
        first picture to the last. */
    method PreviousImage() returns (view: View<Img>)
      requires Valid()
      modifies this`imgIndex
      ensures Valid()
      ensures imgIndex == Wrap(old(imgIndex) - 1, numImgs)
      ensures old(numImgs) > 0 ==> imgIndex == (old(imgIndex) - 1 + numImgs) % numImgs
      ensures view == Current()
    {
      if numImgs > 0 {
        PreviousWraps(imgIndex, numImgs);
      }
      imgIndex := imgIndex - 1;
      view := UpdateImage();
    }

    /** `next_image`: the cursor moves on one place, wrapping from the last
        picture to the first. */
    method NextImage() returns (view: View<Img>)
      requires Valid()
      modifies this`imgIndex
      ensures Valid()
      ensures imgIndex == Wrap(old(imgIndex) + 1, numImgs)
      ensures old(numImgs) > 0 ==> imgIndex == (old(imgIndex) + 1) % numImgs
      ensures view == Current()
    {
      if numImgs > 0 {
        NextWraps(imgIndex, numImgs);
      }
      imgIndex := imgIndex + 1;
      view := UpdateImage();
    }

    /** `hide_current_image` (the "keep" action, and the end of "bad"): pop
        the current picture into the set-aside lists and show the next one.
        With no picture left the pop raises IndexError and nothing changes;
        hiding the very last picture empties the lists and then raises
        IndexError when there is nothing to show. */
    method HideCurrentImage() returns (view: View<Img>)
      requires Valid()
      modifies this`imgList, this`imgPathList, this`badImgList, this`badImgPathList,
               this`numImgs, this`numBadImgs, this`imgIndex
      ensures Valid()
      ensures view == Current()
      ensures old(numImgs) == 0 ==> Untouched() && view == IndexError
      ensures old(numImgs) > 0 ==> PoppedCurrent()
      ensures old(numImgs) == 1 ==> numImgs == 0 && view == IndexError
    {
      if numImgs == 0 {
        return IndexError;
      }
      ghost var paths, imgs, i := imgPathList, imgList, imgIndex;
      PopCurrent();
      view := UpdateImage();
      if |paths| >= 2 {
        HideLandsOnFollower(paths, i);
        HideLandsOnFollower(imgs, i);
      }
    }

    /** The pop itself: the pair under the cursor leaves both active lists and
        joins the end of both set-aside lists; the cursor is not yet repaired. */
    method PopCurrent()
      requires Consistent() && 0 <= imgIndex < numImgs
      modifies this`imgList, this`imgPathList, this`badImgList, this`badImgPathList,
               this`numImgs, this`numBadImgs
      ensures Consistent()
      ensures imgPathList == RemoveAt(old(imgPathList), imgIndex)
      ensures imgList == RemoveAt(old(imgList), imgIndex)
      ensures badImgPathList == old(badImgPathList) + [old(imgPathList)[imgIndex]]
      ensures badImgList == old(badImgList) + [old(imgList)[imgIndex]]
      ensures numImgs == old(numImgs) - 1 && numBadImgs == old(numBadImgs) + 1
    {
      var i := imgIndex;
      PopKeepsPairs(imgPathList, imgList, badImgPathList, badImgList, i);
      var img := imgList[i];
      imgList := RemoveAt(imgList, i);
      badImgList := badImgList + [img];
      var path := imgPathList[i];
      imgPathList := RemoveAt(imgPathList, i);
      badImgPathList := badImgPathList + [path];
      numImgs := numImgs - 1;
      numBadImgs := numBadImgs + 1;
    }

    /** `mark_current_image_bad`: every sidecar of the current picture (its
        path without extension plus each configured extension; the
        configured default when none are given) that exists is renamed into
        the bad folder, the others are skipped, and then the picture is
        hidden. With no picture left, reading the current path raises
        IndexError before anything moves. */
    method MarkCurrentImageBad(fs: FileSystem, exts: seq<string>) returns (view: View<Img>)
      requires Valid()
      modifies this`imgList, this`imgPathList, this`badImgList, this`badImgPathList,
               this`numImgs, this`numBadImgs, this`imgIndex, fs
      ensures Valid()
      ensures view == Current()
      ensures old(numImgs) == 0 ==> Untouched() && fs.paths == old(fs.paths) && view == IndexError
      ensures old(numImgs) > 0 ==> PoppedCurrent()
      ensures old(numImgs) > 0 ==>
                fs.paths == ApplyRenames(old(fs.paths),
                                         Renames(Candidates(old(imgPathList)[old(imgIndex)], if exts == [] then this.exts else exts),
                                                 IntoFolder(badImgFolderPath)))
    {
      if numImgs == 0 {
        return IndexError;
      }
      MoveSidecars(fs, exts);
      view := HideCurrentImage();
    }

    /** The moving half of "bad": the sidecars of the current picture, for the
        given extensions or the configured ones when none are given, are
        renamed into the bad folder when they exist. */
    method MoveSidecars(fs: FileSystem, exts: seq<string>)
      requires Valid() && numImgs > 0
      modifies fs
      ensures fs.paths == ApplyRenames(old(fs.paths),
                                       Renames(Candidates(imgPathList[imgIndex], if exts == [] then this.exts else exts),
                                               IntoFolder(badImgFolderPath)))
    {
      var effective := if exts == [] then this.exts else exts;
      var badImgPath := imgPathList[imgIndex];
      MoveAll(fs, Candidates(badImgPath, effective), badImgFolderPath);
    }

    /** `remove_raw`: "bad" restricted to the raw sidecar. */
    method RemoveRaw(fs: FileSystem) returns (view: View<Img>)
      requires Valid()
      modifies this`imgList, this`imgPathList, this`badImgList, this`badImgPathList,
               this`numImgs, this`numBadImgs, this`imgIndex, fs
      ensures Valid()
      ensures view == Current()
      ensures old(numImgs) == 0 ==> Untouched() && fs.paths == old(fs.paths) && view == IndexError
      ensures old(numImgs) > 0 ==> PoppedCurrent()
      ensures old(numImgs) > 0 ==>
                fs.paths == ApplyRenames(old(fs.paths), Renames(Candidates(old(imgPathList)[old(imgIndex)], RawExts),
                                                                 IntoFolder(badImgFolderPath)))
    {
      view := MarkCurrentImageBad(fs, RawExts);
    }
  }
}

=== FILE: collection.dfy ===
/** The rules behind the image collection and its cursor: the wrap-around
    repair applied before an image is shown, removal of the entry under the
    cursor, and the pairing of paths with their decoded previews. */
module Collection {

  /** The cursor repair done before showing an image: exactly -1 wraps to the
      last entry, anything at or past the end wraps to the first. */
  function Wrap(i: int, n: int): (r: int)
    ensures n > 0 && -1 <= i <= n ==> 0 <= r < n
  {
    if i == -1 then n - 1
    else if i >= n then 0
    else i
  }

  /** On the cursors that update_image can meet, one step past either end,
      the repair is reduction modulo n. */
  lemma WrapIsMod(i: int, n: int)
    requires n > 0 && -1 <= i <= n
    ensures Wrap(i, n) == i % n
  {
    if i == -1 {
      ModUnique(i, n, -1, n - 1);
    } else if i == n {
      ModUnique(i, n, 1, 0);
    } else {
      ModUnique(i, n, 0, i);
    }
  }

  /** The cursor after `k` presses of "next" from `i` in a collection of `n`. */
  function Advance(i: int, n: int, k: nat): int {
    if k == 0 then i else Wrap(Advance(i, n, k - 1) + 1, n)
  }

  /** Euclidean remainder is determined by any quotient-remainder split. */
  lemma ModUnique(a: int, n: int, q: int, r: int)
    requires n > 0 && 0 <= r < n && a == q * n + r
    ensures a % n == r
  {
    var q' := a / n;
    var r' := a % n;
    assert a == q' * n + r';
    var d := q - q';
    assert d * n == q * n - q' * n;
    assert d * n == r' - r;
  }

  /** Taking the successor commutes with reducing modulo `n`. */
  lemma ModSucc(a: int, n: int)
    requires n > 0
    ensures (a % n + 1) % n == (a + 1) % n
  {
    var q, m := a / n, a % n;
    assert a == q * n + m;
    if m + 1 < n {
      ModUnique(a + 1, n, q, m + 1);
      ModUnique(m + 1, n, 0, m + 1);
    } else {
      assert a + 1 == (q + 1) * n + 0;
      ModUnique(a + 1, n, q + 1, 0);
      ModUnique(m + 1, n, 1, 0);
    }
  }

  /** Pressing "next" k times from a valid cursor moves it k places modulo n;
      in particular n presses bring it back to where it started. */
  lemma {:induction false} AdvanceIsModular(i: int, n: int, k: nat)
    requires 0 <= i < n
    ensures Advance(i, n, k) == (i + k) % n
  {
    if k == 0 {
      ModUnique(i, n, 0, i);
    } else {
      AdvanceIsModular(i, n, k - 1);
      var m := Advance(i, n, k - 1);
      ModUnique(m, n, 0, m);
      WrapIsMod(m + 1, n);
      ModSucc(i + k - 1, n);
    }
  }

  /** Stepping forward from a valid cursor and repairing is addition modulo n. */
  lemma NextWraps(i: int, n: int)
    requires 0 <= i < n
    ensures Wrap(i + 1, n) == (i + 1) % n
  {
    if i + 1 == n {
      ModUnique(i + 1, n, 1, 0);
    } else {
      ModUnique(i + 1, n, 0, i + 1);
    }
  }

  /** Stepping back from a valid cursor and repairing gives (i - 1 + n) mod n,
      never a negative index. */
  lemma PreviousWraps(i: int, n: int)
    requires 0 <= i < n
    ensures Wrap(i - 1, n) == (i - 1 + n) % n
  {
    if i == 0 {
      ModUnique(i - 1 + n, n, 0, n - 1);
    } else {
      ModUnique(i - 1 + n, n, 1, i - 1);
    }
  }

  /** "Previous" undoes "next" and "next" undoes "previous". */
  lemma NextPreviousInverse(i: int, n: int)
    requires 0 <= i < n
    ensures Wrap(Wrap(i + 1, n) - 1, n) == i
    ensures Wrap(Wrap(i - 1, n) + 1, n) == i
  {
  }

  /** `list.pop(i)`: the sequence without its entry at `i`. */
  function RemoveAt<T>(s: seq<T>, i: int): (r: seq<T>)
    requires 0 <= i < |s|
    ensures |r| == |s| - 1
    ensures forall k :: 0 <= k < |r| ==> r[k] == if k < i then s[k] else s[k + 1]
    ensures multiset(r) + multiset{s[i]} == multiset(s)
  {
    assert s == s[..i] + [s[i]] + s[i + 1..];
    s[..i] + s[i + 1..]
  }

  /** After the entry at `i` is removed from a collection of at least two
      and the cursor is repaired, it rests on the entry that "next" would
      have shown: the one that followed `i`, or the first when `i` was last. */
  lemma HideLandsOnFollower<T>(s: seq<T>, i: int)
    requires |s| >= 2 && 0 <= i < |s|
    ensures 0 <= Wrap(i, |s| - 1) < |s| - 1
    ensures RemoveAt(s, i)[Wrap(i, |s| - 1)] == s[Wrap(i + 1, |s|)]
  {
  }

  /** Paths paired with their previews, position by position. */
  function Zip<A, B>(a: seq<A>, b: seq<B>): (r: seq<(A, B)>)
    requires |a| == |b|
    ensures |r| == |a|
    ensures forall k :: 0 <= k < |r| ==> r[k] == (a[k], b[k])
  {
    seq(|a|, k requires 0 <= k < |a| => (a[k], b[k]))
  }

  /** Popping the same index from both lists pops that pair from the pairing. */
  lemma ZipRemoveAt<A, B>(a: seq<A>, b: seq<B>, i: int)
    requires |a| == |b| && 0 <= i < |a|
    ensures Zip(RemoveAt(a, i), RemoveAt(b, i)) == RemoveAt(Zip(a, b), i)
  {
  }

  /** Appending to both lists appends the pair to the pairing. */
  lemma ZipAppend<A, B>(a: seq<A>, b: seq<B>, x: A, y: B)
    requires |a| == |b|
    ensures Zip(a + [x], b + [y]) == Zip(a, b) + [(x, y)]
  {
  }

  /** Moving the pair at `i` from the active lists to the end of the set-aside
      lists keeps the pairs of both together unchanged. */
  lemma PopKeepsPairs<A, B>(a: seq<A>, b: seq<B>, da: seq<A>, db: seq<B>, i: int)
    requires |a| == |b| && |da| == |db| && 0 <= i < |a|
    ensures multiset(Zip(RemoveAt(a, i), RemoveAt(b, i))) + multiset(Zip(da + [a[i]], db + [b[i]])) ==
            multiset(Zip(a, b)) + multiset(Zip(da, db))
  {
    ZipRemoveAt(a, b, i);
    ZipAppend(da, db, a[i], b[i]);
    assert Zip(a, b)[i] == (a[i], b[i]);
  }

  /** Python's `filter`: the elements that `keep` accepts, in their order. */
  function Filter<T(!new)>(xs: seq<T>, keep: T -> bool): (r: seq<T>)
    ensures |r| <= |xs|
    ensures forall x :: x in r <==> x in xs && keep(x)
  {
    if xs == [] then []
    else if keep(xs[0]) then [xs[0]] + Filter(xs[1..], keep)
    else Filter(xs[1..], keep)
  }

  /** Filtering keeps the order: filtering a concatenation concatenates the
      filtered parts. */
  lemma {:induction false} FilterConcat<T(!new)>(a: seq<T>, b: seq<T>, keep: T -> bool)
    ensures Filter(a + b, keep) == Filter(a, keep) + Filter(b, keep)
  {
    if a == [] {
      assert a + b == b;
    } else {
      assert (a + b)[0] == a[0];
      assert (a + b)[1..] == a[1..] + b;
      FilterConcat(a[1..], b, keep);
    }
  }

  /** Python's `map`: `f` applied to each element, in order. */
  function Map<A, B>(xs: seq<A>, f: A -> B): (r: seq<B>)
    ensures |r| == |xs|
  {
    seq(|xs|, k requires 0 <= k < |xs| => f(xs[k]))
  }

  /** A value is in the mapped sequence exactly when `f` yields it for some element. */
  lemma MapMembership<A, B>(xs: seq<A>, f: A -> B, y: B)
    ensures y in Map(xs, f) <==> exists x :: x in xs && f(x) == y
  {
    var r := Map(xs, f);
    if y in r {
      var k :| 0 <= k < |r| && r[k] == y;
      assert xs[k] in xs;
    }
    if exists x :: x in xs && f(x) == y {
      var x :| x in xs && f(x) == y;
      var k :| 0 <= k < |xs| && xs[k] == x;
      assert r[k] == y;
    }
  }
}

=== FILE: files.dfy ===
/** The filesystem as the picture cleaner sees it: a set of existing paths,
    changed only by creating the bad folder and by renaming sidecar files
    into it. */
module Files {
  import opened Paths

  class FileSystem {
    /** Every path that currently exists. */
    var paths: set<Path>

    constructor (initial: set<Path>)
      ensures paths == initial
    {
      paths := initial;
    }

    /** `os.rename` of an existing path: the source is gone and the
        destination exists (replacing any file that was there). */
    method Rename(src: Path, dst: Path)
      requires src in paths
      modifies this
      ensures paths == old(paths) - {src} + {dst}
    {
      paths := paths - {src} + {dst};
    }

    /** `os.mkdir`: reports false (the OSError) when the path already exists,
        and the path exists afterwards either way. */
    method Mkdir(dir: Path) returns (created: bool)
      modifies this
      ensures created == (dir !in old(paths))
      ensures paths == old(paths) + {dir}
    {
      created := dir !in paths;
      paths := paths + {dir};
    }
  }

  /** A planned `os.rename` from `src` to `dst`. */
  datatype Move = Move(src: Path, dst: Path)

  /** Where `mark_current_image_bad` sends a file: into the bad folder under
      its own basename. */
  function IntoFolder(badFolder: Path): Path -> Path {
    c => Destination(badFolder, c)
  }

  /** One rename per candidate, each to the path `dest` assigns it. */
  function Renames(cands: seq<Path>, dest: Path -> Path): (r: seq<Move>)
    ensures |r| == |cands|
  {
    seq(|cands|, k requires 0 <= k < |cands| => Move(cands[k], dest(cands[k])))
  }

  /** One step of the move rule: an existing source is renamed; a missing
      one is skipped. */
  function RenameIfExists(fs: set<Path>, m: Move): (r: set<Path>)
    ensures m.src !in fs ==> r == fs
    ensures m.src in fs ==> m.dst in r && (m.src != m.dst ==> m.src !in r)
    ensures |r| <= |fs|
  {
    if m.src in fs then fs - {m.src} + {m.dst} else fs
  }

  /** The filesystem after the move rule is applied to each rename in turn.
      A rename replaces whatever was at its destination, so no rename adds to
      the number of paths. */
  function ApplyRenames(fs: set<Path>, moves: seq<Move>): (r: set<Path>)
    ensures |r| <= |fs|
    decreases |moves|
  {
    if moves == [] then fs
    else ApplyRenames(RenameIfExists(fs, moves[0]), moves[1..])
  }

  /** A path that no rename names, as source or destination, is untouched
      by the renames. */
  lemma {:induction false} ApplyRenamesFrame(fs: set<Path>, moves: seq<Move>, p: Path)
    requires forall m :: m in moves ==> m.src != p && m.dst != p
    ensures p in ApplyRenames(fs, moves) <==> p in fs
    decreases |moves|
  {
    if moves != [] {
      assert moves[0] in moves;
      assert forall m :: m in moves[1..] ==> m in moves;
      ApplyRenamesFrame(RenameIfExists(fs, moves[0]), moves[1..], p);
    }
  }

  /** The loop of `mark_current_image_bad`: each candidate in turn is renamed
      into the bad folder when it exists and skipped otherwise. */
  method MoveAll(fs: FileSystem, cands: seq<Path>, badFolder: Path)
    modifies fs
    ensures fs.paths == ApplyRenames(old(fs.paths), Renames(cands, IntoFolder(badFolder)))
  {
    ghost var moves := Renames(cands, IntoFolder(badFolder));
    var k := 0;
    while k < |cands|
      invariant 0 <= k <= |cands|
      invariant ApplyRenames(fs.paths, moves[k..]) == ApplyRenames(old(fs.paths), moves)
    {
      var c := cands[k];
      var dst := Destination(badFolder, c);
      assert moves[k..][0] == Move(c, dst) && moves[k..][1..] == moves[k + 1..];
      if c in fs.paths {
        fs.Rename(c, dst);
      }
      k := k + 1;
    }
    assert moves[|cands|..] == [];
  }

  /** No rename's destination is the source of a rename in the same list,
      and each source has a single destination. */
  ghost predicate NoChains(moves: seq<Move>) {
    forall m, m' :: m in moves && m' in moves ==> m'.dst != m.src && (m'.src == m.src ==> m' == m)
  }

  /** When no destination is a source, a path exists after the renames exactly
      when it existed and is no source, or it is the destination of a source
      that existed. */
  lemma {:induction false} ApplyRenamesMembership(fs: set<Path>, moves: seq<Move>, p: Path)
    requires NoChains(moves)
    ensures p in ApplyRenames(fs, moves) <==>
            (p in fs && forall m :: m in moves ==> m.src != p) ||
            (exists m :: m in moves && m.src in fs && m.dst == p)
    decreases |moves|
  {
    if moves != [] {
      var m, rest := moves[0], moves[1..];
      var fs' := RenameIfExists(fs, m);
      FirstRename(fs, moves);
      ApplyRenamesMembership(fs', rest, p);
      StepSources(fs, moves, p);
      StepDestinations(fs, moves, p);
    }
  }

  /** A path exists and is no source after the first rename exactly when it
      existed and was no source before, or the first rename brought it. */
  lemma StepSources(fs: set<Path>, moves: seq<Move>, p: Path)
    requires moves != []
    requires forall x :: x in moves ==> moves[0].dst != x.src
    ensures (p in RenameIfExists(fs, moves[0]) && forall x :: x in moves[1..] ==> x.src != p) <==>
            (p in fs && forall x :: x in moves ==> x.src != p) || (moves[0].src in fs && moves[0].dst == p)
  {
    var m := moves[0];
    assert moves == [m] + moves[1..];
    if m.src in fs && m.dst == p {
      assert forall x :: x in moves ==> x.src != p;
    }
  }

  /** Some existing source is renamed to a path exactly when the first rename
      does so, or a later one whose source survives the first rename does. */
  lemma StepDestinations(fs: set<Path>, moves: seq<Move>, p: Path)
    requires moves != []
    requires forall x :: x in moves ==> moves[0].dst != x.src && (x.src == moves[0].src ==> x == moves[0])
    ensures (exists x :: x in moves && x.src in fs && x.dst == p) <==>
            (moves[0].src in fs && moves[0].dst == p) ||
            (exists x :: x in moves[1..] && x.src in RenameIfExists(fs, moves[0]) && x.dst == p)
  {
    var m, rest := moves[0], moves[1..];
    assert moves == [m] + rest;
    if exists x :: x in moves && x.src in fs && x.dst == p {
      var x :| x in moves && x.src in fs && x.dst == p;
      if x.src != m.src {
        var i :| 0 <= i < |moves| && moves[i] == x;
        assert rest[i - 1] == x;
        assert x.src in RenameIfExists(fs, m);
      }
    }
    if exists x :: x in rest && x.src in RenameIfExists(fs, m) && x.dst == p {
      var x :| x in rest && x.src in RenameIfExists(fs, m) && x.dst == p;
      assert x in moves && x.src in fs;
    }
  }

  /** After the first rename the remaining ones still form no chain, and the
      source of a later one exists exactly when it existed before and was not
      the source the first rename took away. */
  lemma FirstRename(fs: set<Path>, moves: seq<Move>)
    requires moves != [] && NoChains(moves)
    ensures NoChains(moves[1..])
    ensures moves == [moves[0]] + moves[1..]
    ensures forall x :: x in moves[1..] ==>
              (x.src in RenameIfExists(fs, moves[0]) <==> x.src in fs && (x.src != moves[0].src || moves[0].src !in fs))
  {
    var m, rest := moves[0], moves[1..];
    forall x, y | x in rest && y in rest
      ensures y.dst != x.src && (y.src == x.src ==> y == x)
    {
      assert x in moves && y in moves;
    }
    forall x | x in rest
      ensures x.src in RenameIfExists(fs, m) <==> x.src in fs && (x.src != m.src || m.src !in fs)
    {
      assert x in moves && m.dst != x.src;
    }
  }

  /** The effect of the renames stated for all of them at once: each source
      is gone, each one that existed is at its destination, and every other
      path is untouched. */
  lemma ApplyRenamesEffect(fs: set<Path>, moves: seq<Move>)
    requires NoChains(moves)
    ensures forall m :: m in moves ==> m.src !in ApplyRenames(fs, moves)
    ensures forall m :: m in moves && m.src in fs ==> m.dst in ApplyRenames(fs, moves)
    ensures forall p :: (forall m :: m in moves ==> m.src != p && m.dst != p) ==>
              (p in ApplyRenames(fs, moves) <==> p in fs)
  {
    forall p {
      ApplyRenamesMembership(fs, moves, p);
    }
  }

  /** No candidate is the destination of another (or of itself). */
  ghost predicate DestinationsAvoid(cands: seq<Path>, dest: Path -> Path) {
    forall c, d :: c in cands && d in cands ==> dest(d) != c
  }

  /** Renaming candidates whose destinations avoid them forms no chain. */
  lemma RenamesNoChains(cands: seq<Path>, dest: Path -> Path)
    requires DestinationsAvoid(cands, dest)
    ensures NoChains(Renames(cands, dest))
  {
    var moves := Renames(cands, dest);
    forall m, m' | m in moves && m' in moves
      ensures m'.dst != m.src && (m'.src == m.src ==> m' == m)
    {
      var i :| 0 <= i < |moves| && moves[i] == m;
      var j :| 0 <= j < |moves| && moves[j] == m';
      assert cands[i] in cands && cands[j] in cands;
    }
  }

  /** When no destination is itself a candidate, a path exists after the
      candidates are moved exactly when it existed and was not a candidate,
      or it is the destination of a candidate that existed. */
  lemma MoveCandidatesMembership(fs: set<Path>, cands: seq<Path>, dest: Path -> Path, p: Path)
    requires DestinationsAvoid(cands, dest)
    ensures p in ApplyRenames(fs, Renames(cands, dest)) <==>
            (p in fs && p !in cands) ||
            (exists c :: c in cands && c in fs && dest(c) == p)
  {
    var moves := Renames(cands, dest);
    RenamesNoChains(cands, dest);
    ApplyRenamesMembership(fs, moves, p);
    assert (forall m :: m in moves ==> m.src != p) <==> p !in cands by {
      if p in cands {
        var i :| 0 <= i < |cands| && cands[i] == p;
        assert moves[i] in moves;
      }
    }
    assert (exists m :: m in moves && m.src in fs && m.dst == p) <==>
           (exists c :: c in cands && c in fs && dest(c) == p) by {
      if exists c :: c in cands && c in fs && dest(c) == p {
        var c :| c in cands && c in fs && dest(c) == p;
        var i :| 0 <= i < |cands| && cands[i] == c;
        assert moves[i] in moves;
      }
    }
  }

  /** Marking a picture loaded from a plain folder bad moves exactly its
      existing sidecars into the bad subfolder and touches nothing else. */
  lemma MarkBadMovesSidecars(fs: set<Path>, folder: Path, name: string, exts: seq<string>)
    requires PlainFolder(folder) && '/' !in name
    requires forall e :: e in exts ==> '/' !in e
    ensures forall p :: p in ApplyRenames(fs, Renames(Candidates(Join(folder, name), exts), IntoFolder(BadFolder(folder)))) <==>
              (p in fs && p !in Candidates(Join(folder, name), exts)) ||
              (exists c :: c in Candidates(Join(folder, name), exts) && c in fs && Destination(BadFolder(folder), c) == p)
  {
    var cands := Candidates(Join(folder, name), exts);
    var dest := IntoFolder(BadFolder(folder));
    DestinationsAvoidCandidates(folder, name, exts);
    assert DestinationsAvoid(cands, dest);
    forall p
      ensures p in ApplyRenames(fs, Renames(cands, dest)) <==>
              (p in fs && p !in cands) || (exists c :: c in cands && c in fs && Destination(BadFolder(folder), c) == p)
    {
      MoveCandidatesMembership(fs, cands, dest, p);
    }
  }
}

=== FILE: paths.dfy ===
/** The path rules the picture cleaner uses to pick files and to move them:
    POSIX `os.path.splitext`, `basename` and `join`, the JPEG filter applied
    to a directory listing, and the sidecar names derived from an image. */
module Paths {
  import opened Collection

  type Path = string

  /** The result of `os.path.splitext`: `root + ext` is the original path. */
  datatype Split = Split(root: Path, ext: string)

  /** Index of the last occurrence of `c` in `s`, or -1 (Python's `str.rfind`). */
  function RFind(s: string, c: char): (r: int)
    ensures -1 <= r < |s|
    ensures r >= 0 ==> s[r] == c
    ensures forall k :: r < k < |s| ==> s[k] != c
  {
    RFindBefore(s, c, |s|)
  }

  /** Index of the last occurrence of `c` in `s[..end]`, or -1. */
  function RFindBefore(s: string, c: char, end: nat): (r: int)
    requires end <= |s|
    ensures -1 <= r < end
    ensures r >= 0 ==> s[r] == c
    ensures forall k :: r < k < end ==> s[k] != c
  {
    if end == 0 then -1
    else if s[end - 1] == c then end - 1
    else RFindBefore(s, c, end - 1)
  }

  /** Any index meeting RFind's contract is the one RFind returns. */
  lemma RFindIs(s: string, c: char, r: int)
    requires -1 <= r < |s|
    requires r >= 0 ==> s[r] == c
    requires forall k :: r < k < |s| ==> s[k] != c
    ensures RFind(s, c) == r
  {
  }

  /** True when the path is absolute (starts with the separator). */
  predicate IsAbsolute(p: Path) {
    |p| > 0 && p[0] == '/'
  }

  /** `os.path.basename`: everything after the last '/'. */
  function Basename(p: Path): (r: Path)
    ensures '/' !in r
  {
    p[RFind(p, '/') + 1..]
  }

  /** The basename is the path's last component: a suffix of the path that
      is the whole path or follows its last separator. */
  lemma {:induction false} BasenameIsLastComponent(p: Path)
    ensures |Basename(p)| <= |p| && p[..|p| - |Basename(p)|] + Basename(p) == p
    ensures |Basename(p)| < |p| ==> p[|p| - |Basename(p)| - 1] == '/'
  {
    var sep := RFind(p, '/');
    var b := p[sep + 1..];
    assert Basename(p) == b;
    assert |p| - |b| == sep + 1;
    assert p[..sep + 1] + b == p;
  }

  /** A basename with no extension: no dot follows a non-dot character. */
  ghost predicate NoExtension(b: string) {
    forall i, j :: 0 <= i < j < |b| && b[i] != '.' ==> b[j] != '.'
  }

  /** True when some character of `p[lo..hi]` is not a dot. */
  predicate HasNonDot(p: string, lo: int, hi: int)
    requires 0 <= lo <= hi <= |p|
  {
    exists k :: lo <= k < hi && p[k] != '.'
  }

  /** `os.path.splitext` on POSIX paths: the extension starts at the last dot
      of the basename, unless everything before that dot in the basename is a
      dot too (so ".jpg" and "..jpg" have no extension). */
  function SplitExt(p: Path): (r: Split)
    ensures r.root + r.ext == p
  {
    var sep := RFind(p, '/');
    var dot := RFind(p, '.');
    if dot > sep && HasNonDot(p, sep + 1, dot) then
      assert p[..dot] + p[dot..] == p;
      Split(p[..dot], p[dot..])
    else
      Split(p, [])
  }

  /** A split-off extension is a dot followed by characters that are neither
      dots nor separators. */
  lemma SplitExtExtension(p: Path)
    ensures SplitExt(p).ext != [] ==>
            SplitExt(p).ext[0] == '.' && '.' !in SplitExt(p).ext[1..] && '/' !in SplitExt(p).ext
  {
    var sep := RFind(p, '/');
    var dot := RFind(p, '.');
    var e := SplitExt(p).ext;
    if e != [] {
      assert e == p[dot..];
      forall j | 0 <= j < |e| - 1
        ensures e[1..][j] != '.'
      {
        assert e[1..][j] == p[dot + 1 + j];
      }
      forall j | 0 <= j < |e|
        ensures e[j] != '/'
      {
        assert e[j] == p[dot + j];
      }
    }
  }

  /** splitext finds no extension exactly when no dot follows a non-dot
      character in the basename: leading dots, as in ".cshrc" or ".jpg", stay
      in the root. */
  lemma SplitExtNoExtension(p: Path)
    ensures SplitExt(p).ext == [] <==> NoExtension(Basename(p))
  {
    var sep := RFind(p, '/');
    var dot := RFind(p, '.');
    var b := Basename(p);
    assert b == p[sep + 1..];
    if SplitExt(p).ext == [] {
      forall i, j | 0 <= i < j < |b| && b[i] != '.'
        ensures b[j] != '.'
      {
        assert b[i] == p[sep + 1 + i] && b[j] == p[sep + 1 + j];
      }
    } else {
      assert dot > sep && HasNonDot(p, sep + 1, dot);
      var k :| sep + 1 <= k < dot && p[k] != '.';
      assert b[k - sep - 1] == p[k] && b[dot - sep - 1] == p[dot];
    }
  }

  /** `os.path.join(a, b)` on POSIX: an absolute `b` replaces `a`; otherwise
      a separator is inserted unless `a` is empty or already ends with one. */
  function Join(a: Path, b: Path): (r: Path)
    ensures |b| <= |r| && r[|r| - |b|..] == b
    ensures !IsAbsolute(b) ==> |a| <= |r| && r[..|a|] == a
  {
    if IsAbsolute(b) then b
    else if a == [] || a[|a| - 1] == '/' then a + b
    else a + "/" + b
  }

  /** Joining a name without separators yields a path whose basename is that
      name. */
  lemma BasenameOfJoin(a: Path, b: Path)
    requires '/' !in b
    ensures Basename(Join(a, b)) == b
  {
    var r := Join(a, b);
    assert !IsAbsolute(b) by {
      if |b| > 0 {
        assert b[0] in b;
      }
    }
    var sep := |r| - |b| - 1;
    assert r[sep + 1..] == b;
    forall k | sep < k < |r|
      ensures r[k] != '/'
    {
      assert r[k] == b[k - sep - 1];
    }
    if a == [] {
      RFindIs(r, '/', -1);
    } else if a[|a| - 1] == '/' {
      assert r == a + b && r[sep] == a[|a| - 1];
      RFindIs(r, '/', sep);
    } else {
      assert r == a + "/" + b && r[sep] == '/';
      RFindIs(r, '/', sep);
    }
  }

  /** The `bad` subfolder that receives the files of rejected pictures: a
      path under the picture folder ending in "bad". */
  function BadFolder(folder: Path): (r: Path)
    ensures |folder| < |r| && r[..|folder|] == folder
    ensures 3 <= |r| && r[|r| - 3..] == "bad"
  {
    Join(folder, "bad")
  }

  /** Where a moved file lands: the bad folder joined with its basename, so
      the file keeps its name. */
  function Destination(badFolder: Path, path: Path): (r: Path)
    ensures Basename(r) == Basename(path)
    ensures |badFolder| <= |r| && r[..|badFolder|] == badFolder
  {
    BasenameOfJoin(badFolder, Basename(path));
    assert !IsAbsolute(Basename(path)) by {
      if |Basename(path)| > 0 {
        assert Basename(path)[0] in Basename(path);
      }
    }
    Join(badFolder, Basename(path))
  }

  /** ASCII lower-casing of one character. */
  function LowerChar(c: char): char {
    if 'A' <= c <= 'Z' then (c as int + 32) as char else c
  }

  /** `str.lower` restricted to ASCII letters: no upper-case letter is left,
      each upper-case letter becomes its lower-case partner, and every other
      character is kept. */
  function Lower(s: string): (r: string)
    ensures |r| == |s|
    ensures forall k :: 0 <= k < |r| ==> !('A' <= r[k] <= 'Z')
    ensures forall k :: 0 <= k < |r| ==> r[k] == s[k] || ('A' <= s[k] <= 'Z' && r[k] as int == s[k] as int + 32)
  {
    seq(|s|, k requires 0 <= k < |s| => LowerChar(s[k]))
  }

  /** Lower-casing yields ".jpg" exactly for the four-letter spellings of it. */
  lemma LowerIsJpg(e: string)
    ensures Lower(e) == ".jpg" <==>
      |e| == 4 && e[0] == '.' && (e[1] == 'j' || e[1] == 'J') &&
      (e[2] == 'p' || e[2] == 'P') && (e[3] == 'g' || e[3] == 'G')
  {
    if |e| == 4 {
      assert Lower(e) == [LowerChar(e[0]), LowerChar(e[1]), LowerChar(e[2]), LowerChar(e[3])];
    }
  }

  /** The load filter's test, that the lower-cased extension is ".jpg": a
      case-insensitive match of the extension against ".jpg". */
  predicate IsJpg(name: string)
    ensures IsJpg(name) <==>
      var e := SplitExt(name).ext;
      |e| == 4 && e[0] == '.' && (e[1] == 'j' || e[1] == 'J') &&
      (e[2] == 'p' || e[2] == 'P') && (e[3] == 'g' || e[3] == 'G')
  {
    LowerIsJpg(SplitExt(name).ext);
    Lower(SplitExt(name).ext) == ".jpg"
  }

  /** The join of `folder` with a name, as a function of the name. */
  function JoinUnder(folder: Path): string -> Path {
    n => Join(folder, n)
  }

  /** The image paths `show` loads from a folder listing: the names that
      pass the JPEG filter, in listing order, each joined with the folder. */
  function LoadPaths(folder: Path, names: seq<string>): (r: seq<Path>)
    ensures |r| <= |names|
  {
    Map(Filter(names, IsJpg), JoinUnder(folder))
  }

  /** A path is loaded exactly when it is the folder joined with a listed JPEG name. */
  lemma LoadPathsMembership(folder: Path, names: seq<string>, p: Path)
    ensures p in LoadPaths(folder, names) <==>
            exists n :: n in names && IsJpg(n) && p == Join(folder, n)
  {
    var jpgs := Filter(names, IsJpg);
    MapMembership(jpgs, JoinUnder(folder), p);
    if exists n :: n in names && IsJpg(n) && p == Join(folder, n) {
      var n :| n in names && IsJpg(n) && p == Join(folder, n);
      assert n in jpgs && JoinUnder(folder)(n) == p;
    }
  }

  /** Nothing is loaded exactly when no listed name passes the JPEG filter. */
  lemma LoadPathsEmpty(folder: Path, names: seq<string>)
    ensures LoadPaths(folder, names) == [] <==> forall n :: n in names ==> !IsJpg(n)
  {
    var jpgs := Filter(names, IsJpg);
    if jpgs != [] {
      assert jpgs[0] in jpgs;
    }
  }

  /** The sidecar files of an image: its path without extension, a dot, and
      each configured extension in turn. */
  function Candidates(imagePath: Path, exts: seq<string>): (r: seq<Path>)
    ensures |r| == |exts|
  {
    Map(exts, WithExtension(SplitExt(imagePath).root))
  }

  /** A stem followed by a dot and the given extension. */
  function WithExtension(stem: Path): string -> Path {
    e => stem + "." + e
  }

  /** Every sidecar of an image that has an extension splits back into the
      image's own stem and the configured extension. */
  lemma CandidateSharesStem(p: Path, e: string)
    requires SplitExt(p).ext != []
    requires '.' !in e && '/' !in e
    ensures SplitExt(SplitExt(p).root + "." + e) == Split(SplitExt(p).root, "." + e)
  {
    var sep := RFind(p, '/');
    var dot := RFind(p, '.');
    assert sep < dot && HasNonDot(p, sep + 1, dot) && SplitExt(p).root == p[..dot];
    var root := p[..dot];
    var k :| sep + 1 <= k < dot && p[k] != '.';
    assert root[k] != '.';
    assert forall j :: sep < j < |root| ==> root[j] != '/';
    RFindIs(root, '/', sep);
    AppendExtension(root, sep, k - sep - 1, e);
  }

  /** Appending "." + e to a path whose basename holds a non-dot character
      gives a path whose extension is exactly "." + e. */
  lemma AppendExtension(root: Path, sep: int, k: int, e: string)
    requires sep == RFind(root, '/')
    requires 0 <= k && sep + 1 + k < |root| && root[sep + 1 + k] != '.'
    requires '.' !in e && '/' !in e
    ensures SplitExt(root + "." + e) == Split(root, "." + e)
  {
    var q := root + "." + e;
    forall j | sep < j < |q|
      ensures q[j] != '/'
    {
      if j > |root| {
        assert q[j] == e[j - |root| - 1];
      }
    }
    RFindIs(q, '/', sep);
    forall j | |root| < j < |q|
      ensures q[j] != '.'
    {
      assert q[j] == e[j - |root| - 1];
    }
    RFindIs(q, '.', |root|);
    assert q[sep + 1 + k] != '.';
    assert HasNonDot(q, sep + 1, |root|);
    assert q[..|root|] == root;
    assert q == root + ("." + e);
    assert q[|root|..] == "." + e;
  }

  /** The image file itself is among its sidecars exactly when its own
      extension, without the dot and with the same case, is configured. */
  lemma ImageAmongCandidates(p: Path, exts: seq<string>)
    requires SplitExt(p).ext != []
    ensures p in Candidates(p, exts) <==> SplitExt(p).ext[1..] in exts
  {
    SplitExtExtension(p);
    OwnExtensionAmong(SplitExt(p).root, SplitExt(p).ext, exts);
  }

  /** A stem followed by an extension is among the stem's sidecars exactly
      when that extension, without its dot, is configured. */
  lemma OwnExtensionAmong(root: Path, ext: string, exts: seq<string>)
    requires ext != [] && ext[0] == '.'
    ensures root + ext in Map(exts, WithExtension(root)) <==> ext[1..] in exts
  {
    var f := WithExtension(root);
    MapMembership(exts, f, root + ext);
    assert ext == "." + ext[1..];
    if exists e :: e in exts && f(e) == root + ext {
      var e :| e in exts && f(e) == root + ext;
      assert root + ("." + e) == root + ext;
      assert (root + ("." + e))[|root|..] == "." + e;
      assert (root + ext)[|root|..] == ext;
    }
    if ext[1..] in exts {
      assert f(ext[1..]) == root + ext;
    }
  }

  /** `c` names an entry directly inside `folder`. */
  predicate InFolder(c: Path, folder: Path) {
    |c| > |folder| && c[..|folder|] == folder && c[|folder|] == '/' && '/' !in c[|folder| + 1..]
  }

  /** A folder name as `os.path.abspath` produces it, other than the root. */
  predicate PlainFolder(folder: Path) {
    folder != [] && folder[|folder| - 1] != '/'
  }

  /** Joining a plain folder with a name free of separators lands in that folder. */
  lemma JoinInFolder(folder: Path, name: string)
    requires PlainFolder(folder) && '/' !in name
    ensures Join(folder, name) == folder + "/" + name
    ensures InFolder(Join(folder, name), folder)
  {
    var r := folder + "/" + name;
    assert r[|folder| + 1..] == name;
  }

  /** The sidecars of a picture loaded from a plain folder lie in that folder. */
  lemma CandidatesInFolder(folder: Path, name: string, exts: seq<string>)
    requires PlainFolder(folder) && '/' !in name
    requires forall e :: e in exts ==> '/' !in e
    ensures forall c :: c in Candidates(Join(folder, name), exts) ==> InFolder(c, folder)
  {
    var p := Join(folder, name);
    JoinInFolder(folder, name);
    var s := SplitExt(p);
    assert p[|folder|] == '/';
    assert |s.root| > |folder|;
    assert s.root == p[..|s.root|];
    forall c | c in Candidates(p, exts)
      ensures InFolder(c, folder)
    {
      var cs := Candidates(p, exts);
      var k :| 0 <= k < |cs| && cs[k] == c;
      var e := exts[k];
      assert c == s.root + "." + e;
      assert e in exts;
      forall j | |folder| + 1 <= j < |c|
        ensures c[j] != '/'
      {
        if j < |s.root| {
          assert c[j] == p[j];
          assert p[j] == p[|folder| + 1..][j - |folder| - 1];
        } else if j > |s.root| {
          assert c[j] == e[j - |s.root| - 1];
        }
      }
      assert c[..|folder|] == p[..|folder|];
    }
  }

  /** Moved files land directly in the bad subfolder of a plain folder. */
  lemma DestinationInBadFolder(folder: Path, c: Path)
    requires PlainFolder(folder)
    ensures BadFolder(folder) == folder + "/bad"
    ensures InFolder(Destination(BadFolder(folder), c), folder + "/bad")
  {
    JoinInFolder(folder, "bad");
    BasenameInFolder(folder + "/bad", Basename(c));
  }

  /** Joining a plain folder with a basename lands directly in that folder. */
  lemma BasenameInFolder(folder: Path, b: Path)
    requires PlainFolder(folder) && '/' !in b
    ensures InFolder(Join(folder, b), folder)
  {
    JoinInFolder(folder, b);
  }

  /** Nothing directly inside a folder is also directly inside its subfolder. */
  lemma FolderAndSubfolderDisjoint(x: Path, y: Path, folder: Path, sub: string)
    requires sub != [] && '/' !in sub
    requires InFolder(x, folder) && InFolder(y, folder + "/" + sub)
    ensures x != y
  {
  }

  /** For a picture loaded from a plain folder, no destination in the bad
      subfolder is the name of one of its sidecars. */
  lemma DestinationsAvoidCandidates(folder: Path, name: string, exts: seq<string>)
    requires PlainFolder(folder) && '/' !in name
    requires forall e :: e in exts ==> '/' !in e
    ensures forall c, d :: c in Candidates(Join(folder, name), exts) && d in Candidates(Join(folder, name), exts)
              ==> Destination(BadFolder(folder), d) != c
  {
    var cs := Candidates(Join(folder, name), exts);
    CandidatesInFolder(folder, name, exts);
    forall c, d | c in cs && d in cs
      ensures Destination(BadFolder(folder), d) != c
    {
      assert InFolder(c, folder);
      var dst := Destination(BadFolder(folder), d);
      DestinationInBadFolder(folder, d);
      FolderAndSubfolderDisjoint(c, dst, folder, "bad");
    }
  }
}
